=== FILE: README.md ===
# Tooltip controller model

A Dafny model of `TooltipCore` (`src/core.ts`), the controller that attaches a
floating tooltip overlay to one DOM element. The model covers:

- the overlay lifecycle as an immutable state record with pure transitions: `show`,
  `update`, `hide`, the two removal signals armed by `hide` (the `transitionend`
  handler and the 125 ms fallback timer), `destroy`, and the listener dispatch that
  turns DOM events into those calls (`Tooltip` module);
- the swap between the element's native `title` attribute and the content attribute
  (`data-title` by default) done lazily by `getContent` and undone by `destroy`
  (`Attributes`);
- the placement function `getPosition` over exact `real` arithmetic: vertical flip at
  the viewport's half height, centring, and the left and right snaps (`Geometry`);
- the listener registrations made by `init` and removed by `destroy`, identified by
  target, event type, handler and capture flag as in the DOM (`Listeners`);
- the shared stylesheet, added only when absent (`Styles`);
- invariants and round trips over all of the above (`TooltipProofs`).

The state (`Tooltip.State`) holds the input mode, the merged options, the element's
attributes, the current overlay (an id), whether focus is on the bound element, the
number of pending Tab focus reads, the hidden overlays with their outstanding removal
signals, the listener registrations, and the document part the instance touches
(head element ids, the attached overlays in body order, every overlay node created).
Geometry (element rectangle, overlay size, viewport size) is a `Layout` parameter of
the operations that measure it.

The constructor does not migrate `title` into `data-title` (src/core.ts:27-36);
migration happens lazily, in `getContent`, on the first `show` that looks up content.

Assigning a `null` content (no content option and no content attribute) to
`innerHTML` gives empty markup; `Tooltip.Markup` models that.

`Tooltip.DestroyAsWritten` is `destroy` as the code writes it, and it is the `destroy`
that the public-call input of `Tooltip.Step` runs. `Tooltip.Destroy` is the corrected
version (see Findings); its properties are stated separately.

## Model

| member | source | states |
|---|---|---|
| Geometry.GetPosition | src/core.ts:104-119 | the overlay sits exactly 8 px above an element in the lower half of the viewport and 8 px below one in the upper half; it is centred over the element when no snap fires, aligned with the element's left edge when the left snap fires and it then fits, and when the overlay (centred or left-snapped) would overflow the viewport on the right, x is the element's right edge minus the overlay's width; its right edge is always inside the viewport or aligned with the element's right edge |
| Geometry.RightEdgeInView | src/core.ts:116 | an element whose right edge is inside the viewport never gets an overlay sticking out on the right |
| Geometry.FlushLeft | src/core.ts:114 | an element flush with the left viewport edge and narrower than a fitting overlay gets the overlay at x = 0, not at a negative x |
| Geometry.StaysInView | src/core.ts:110-116 | for an element inside the viewport whose right edge is at least the overlay's width, the overlay is horizontally inside the viewport |
| Geometry.PushedOffLeft | src/core.ts:114-116 | a witness that the right snap can push an overlay that would fit the viewport off its left edge (x = -75 for a 10 px element at x = 10, a 95 px overlay, a 100 px viewport) |
| Attributes.GetContent | src/core.ts:93-102 | with the default content attribute and a non-empty title, returns the title, which then lives in `data-title` while `title` is gone and other attributes are unchanged; otherwise the attributes are unchanged; the value returned is always what the content attribute holds afterwards |
| Attributes.RestoreTitle | src/core.ts:64-70 | with the default content attribute and a non-empty `data-title`, that value moves to `title` and `data-title` is gone, other attributes unchanged; otherwise nothing changes |
| Attributes.GetContentStable | src/core.ts:93-102 | a second content lookup returns the same value and changes no attribute |
| Attributes.MigrateRestore | src/core.ts:64-70 | migrating a non-empty title and then restoring it gives back the original attributes minus any prior `data-title` |
| Attributes.RestoreMigrate | src/core.ts:93-98 | restoring a non-empty `data-title` and looking the content up again returns that value and gives back the attributes minus any prior `title` |
| Listeners.Wiring | src/core.ts:139-155 | the registrations of each mode: blur (capture), scroll (capture) and orientation change in both; click and contextmenu in touch mode only; focus, mouseover, mouseout and keydown in pointer mode only; each event runs one fixed handler |
| Listeners.Bind | src/core.ts:139-155 | `init` adds all of the mode's registrations and nothing else |
| Listeners.UnbindAsWritten | src/core.ts:72-86 | the code's removal never removes the capture-phase blur registration; it removes every other registration of the mode and a bubble-phase blur, and keeps every other registration |
| Listeners.Unbind | src/core.ts:72-86 | the intended removal leaves none of the mode's registrations and keeps every other registration |
| Listeners.AsWrittenKeepsBlur | src/core.ts:72 | after `init` then the code's `destroy`, the capture-phase blur registration survives and every other registration of the mode is gone |
| Listeners.UnbindAfterBind | src/core.ts:139-155 | `init` then the intended `destroy` gives back exactly the prior registrations |
| Listeners.BindIdempotent | src/core.ts:139-155 | registering the same listeners twice adds nothing |
| Styles.EnsureStyles | src/core.ts:35 | the stylesheet is present afterwards; a head that already holds it is left unchanged; otherwise exactly one copy is appended at the end |
| Styles.OneStylesheet | src/core.ts:35 | any positive number of constructions on a document without the stylesheet leaves exactly one copy |
| Tooltip.Detach | src/core.ts:130 | removing a node takes exactly that node out of the body, keeps the rest, and does nothing to a detached node |
| Tooltip.DetachKeepsOrder | src/core.ts:130 | removing the node at position i leaves the other overlays in their document order |
| Tooltip.MergeOptions | src/core.ts:29-31 | the content attribute defaults to `data-title` unless the caller gives one; the content option passes through |
| Tooltip.Construct | src/core.ts:27-36 | a new instance keeps the merged options and the mode; it has no overlay, no pending removals and no focus on the element; the attributes are untouched (no title migration); the mode's listeners are registered; the head passes through the stylesheet guard; it satisfies the state invariant |
| Tooltip.Update | src/core.ts:176-183 | no overlay: nothing changes; otherwise only the current overlay changes, becoming visible at the position `getPosition` computes |
| Tooltip.Show | src/core.ts:159-174 | an existing overlay makes it a no-op; otherwise a fresh overlay is appended at the end of the body, becomes current and visible at the computed position; it holds the content option with the attributes untouched, or else the looked-up attribute with the lookup's attribute changes |
| Tooltip.Hide | src/core.ts:121-137 | no overlay, focus still on the element, or a related target inside the element: nothing changes; otherwise the current overlay is cleared, faded out, still attached, and awaiting both removal signals |
| Tooltip.Complete | src/core.ts:129-136 | the first removal signal for a hidden overlay detaches exactly that node; a signal no longer outstanding, or for any other node, changes nothing |
| Tooltip.Destroy | src/core.ts:64-86 | the title is restored as `RestoreTitle` says, none of the mode's listeners remain, and the overlay is left as it is |
| Tooltip.DestroyAsWritten | src/core.ts:64-86 | same attribute change; of the mode's registrations only the capture-phase blur stays; other registrations stay unless they are a bubble-phase blur; the overlay, document and pending removals are untouched |
| Tooltip.Handle | src/core.ts:11-24 | no handler changes the mode, options, registrations or stylesheet; the blur handler clears the focus flag, so it hides a visible overlay whenever the related target is not inside the element, while the plain hide handler does nothing while focus is on the element; the show handlers always leave an overlay; the update handler never creates, hides or re-labels one; the keydown handler touches neither overlay nor attributes and schedules one focus read exactly on Tab |
| Tooltip.Step | src/core.ts:89-91 | across every input: the mode, options and stylesheet are fixed; only destroy touches the registrations; an event nobody listens for changes nothing; node ids are never reused; the focus flag moves only when a scheduled Tab read settles (to whether the element then has focus) or on blur; only a Tab keydown schedules a read; the attributes change only through a show or a destroy |
| TooltipProofs.UpdatePreservesValid | src/core.ts:176-183 | `update` keeps the state invariant |
| TooltipProofs.ShowPreservesValid | src/core.ts:159-174 | `show` keeps the state invariant: the new node is fresh, attached once, and the only visible one |
| TooltipProofs.HidePreservesValid | src/core.ts:121-137 | `hide` keeps the state invariant |
| TooltipProofs.CompletePreservesValid | src/core.ts:129-136 | removal signals keep the state invariant |
| TooltipProofs.DestroyPreservesValid | src/core.ts:64-86 | the corrected `destroy` keeps the state invariant |
| TooltipProofs.HandlePreservesValid | src/core.ts:11-24 | every bound handler keeps the state invariant |
| TooltipProofs.StepPreservesValid | src/core.ts:11-24 | every DOM event, timer, removal signal and public call, `destroy` as the code writes it included, keeps the state invariant |
| TooltipProofs.RunPreservesValid | src/core.ts:11-24 | any sequence of inputs, with the code's `destroy`, keeps the state invariant |
| TooltipProofs.AtMostOneVisible | src/core.ts:159-160 | in a reachable state only the current overlay is visible; every other attached overlay is fading out |
| TooltipProofs.OneVisibleAfterAnyRun | src/core.ts:159-160 | after construction and any history of inputs, including the code's `destroy`, at most one attached overlay is visible |
| TooltipProofs.DuplicateShow | src/core.ts:159-160 | a second `show` changes nothing |
| TooltipProofs.UpdateIdempotent | src/core.ts:176-183 | a second `update` with the same measurements changes nothing, so repeated scroll events leave the overlay where the first put it |
| TooltipProofs.DuplicateHide | src/core.ts:121-126 | a second `hide` after the overlay reference was cleared changes nothing |
| TooltipProofs.HideThenShowFresh | src/core.ts:124-126 | after an effective `hide`, `show` creates a new overlay never seen before while the old one is still attached and awaiting removal |
| TooltipProofs.RemovedExactlyOnce | src/core.ts:129-136 | whichever of `transitionend` and the timer fires first removes the hidden node and nothing else; the other then changes no document state |
| TooltipProofs.OldTimerSparesCurrent | src/core.ts:134-136 | no removal signal removes or alters the current overlay, so a timer armed by an earlier `hide` cannot remove the overlay of a later `show` |
| TooltipProofs.ShowDestroyRoundTrip | src/core.ts:64-70 | with the default content attribute, no content option and a non-empty title, `show` then `destroy` (as the code writes it) restores the title and removes `data-title` |
| TooltipProofs.DestroyedIgnoresEvents | src/core.ts:72-86 | after the intended `destroy`, no DOM event changes the instance |
| TooltipProofs.BlurAfterAsWrittenDestroy | src/core.ts:140 | after the code's `destroy`, a blur on the element still hides a visible overlay, even when focus was on the element, because the blur handler clears the focus flag first |
| TooltipProofs.TabFocusKeepsOverlay | src/core.ts:122 | in pointer mode, once a Tab focus read settles on the element, mouseout leaves the state unchanged while blur still hides the overlay |
| TooltipProofs.ConstructDestroyRoundTrip | src/core.ts:64-70 | `destroy` right after construction gives back the original attributes exactly when the content attribute is not the default or `data-title` is absent or empty |
| TooltipProofs.DestroyInventsTitle | src/core.ts:64-70 | a witness: construct on an element with only `data-title="Save"`, then `destroy`, and the element has `title="Save"` and no `data-title` |
| TooltipProofs.DestroyOverwritesTitle | src/core.ts:64-70 | a witness: with both `title="Old"` and `data-title="New"`, `destroy` after construction leaves only `title="New"` |
| TooltipProofs.HoverShowsTitle | src/core.ts:150 | mouseover on a pointer-mode instance without an overlay, over an element whose only attribute is a non-empty title, appends one visible overlay holding that title and moves the title to `data-title` |
| TooltipProofs.LeaveFadesThenRemoves | src/core.ts:151 | mouseout towards a node outside the element fades the only overlay but leaves it attached; the timer then removes it |
| TooltipProofs.EndToEnd | src/core.ts:149-151 | a button titled "Save" in pointer mode: mouseover shows a visible overlay reading "Save" at the end of the body and moves the title to `data-title`; mouseout fades it but leaves it attached; the timer removes it |

## Findings

| source | as written | input that shows it | evidently intended | confidence | as-written member | corrected member |
|---|---|---|---|---|---|---|
| src/core.ts:72 | `destroy` removes the blur listener without the capture flag, but `init` (src/core.ts:140) added it with capture `true`; the DOM only removes a listener whose capture flag matches, so the blur listener survives | construct in either mode, `show`, `destroy`, then blur the element: the destroyed instance still hides its overlay | remove the blur listener with capture `true`, so that `destroy` removes every registration `init` made | high (not executed) | Listeners.UnbindAsWritten | Listeners.Unbind |

## Left out

- DOM event propagation (capture and bubble phases, events from descendants): an event
  either reaches a target where a matching registration exists or it does not.
- `setTimeout`, the event loop and `transitionend` timing: they are inputs
  (`FocusSettled`, `Finish`) that may arrive in any order; each removal signal fires at
  most once, and transitions other than the fade-out are not modelled.
- The Tab focus read (src/core.ts:89-91): `document.activeElement` after the timer is a
  boolean parameter of `FocusSettled`.
- The touch probe `isTouch` (src/core.ts:157) is a fixed mode; the code probes again in
  `destroy`, and a capability that changed in between is not modelled.
- The stylesheet's CSS text (src/core.ts:42-59); the presence check looks at the ids of
  head elements only, while `querySelector` searches the whole document.
- `innerHTML` parsing, the transform string (src/core.ts:181) and `preventDefault` in the
  contextmenu handler: content is an opaque string and the position a `Point`.
- Floating-point rounding and the measurement by `getBoundingClientRect`: rectangles
  and the viewport are exact `real` inputs.
- Attributes.GetContent: attribute names are taken as already lower-case; on an HTML
  element `getAttribute` lower-cases the name it is given (so `Data-Title` reads
  `data-title`), and the model does not fold case.
- An options object that sets `contentAttr` explicitly to `undefined`, which overrides
  the default with `undefined`: the model's options either give a string or omit it.
- Several instances on one document: node ids are per instance and the registrations
  are the instance's own.
- src/tooltip.ts (a one-line factory around the constructor) and rollup.config.js
  (build configuration).

=== FILE: attributes.dfy ===
/**
 The bound element's attributes and the swap between the native `title`
 attribute and the content attribute (`data-title` by default).
 */
module Attributes {
  import opened Wrappers

  /** The element's attributes, name to value. */
  type Attrs = map<string, string>

  const Title: string := "title"
  const DataTitle: string := "data-title"

  /** `getAttribute`: the value, or None (the DOM's null) when the attribute is absent. */
  function Get(attrs: Attrs, name: string): Option<string> {
    if name in attrs then Some(attrs[name]) else None
  }

  /** JavaScript truthiness of a `getAttribute` result: present and not empty. */
  predicate Truthy(v: Option<string>) {
    v.Some? && v.value != ""
  }

  /** `getContent` moves the native title into `data-title`. */
  predicate Migrates(attrs: Attrs, contentAttr: string) {
    contentAttr == DataTitle && Truthy(Get(attrs, Title))
  }

  /** `destroy` moves `data-title` back into the native title. */
  predicate Restores(attrs: Attrs, contentAttr: string) {
    contentAttr == DataTitle && Truthy(Get(attrs, DataTitle))
  }

  /** The outcome of `getContent`: the attributes afterwards and the value it returns. */
  datatype Lookup = Lookup(attrs: Attrs, value: Option<string>)

  /** `getContent`: read the content attribute, first moving a non-empty native title
      into `data-title` when the content attribute is the default one. */
  function GetContent(attrs: Attrs, contentAttr: string): (r: Lookup)
    // what it returns is what the content attribute holds afterwards
    ensures r.value == Get(r.attrs, contentAttr)
    // the migration: the old title is returned, now held by data-title, and title is gone
    ensures Migrates(attrs, contentAttr) ==>
      && r.value == Some(attrs[Title])
      && Title !in r.attrs
      && r.attrs.Keys == attrs.Keys - {Title} + {DataTitle}
      && forall k :: k in attrs && k != Title && k != DataTitle ==> r.attrs[k] == attrs[k]
    // every other case leaves the attributes alone
    ensures !Migrates(attrs, contentAttr) ==> r.attrs == attrs
  {
    var title := Get(attrs, Title);
    if contentAttr == DataTitle && Truthy(title) then
      Lookup((attrs - {Title})[DataTitle := title.value], title)
    else
      Lookup(attrs, Get(attrs, contentAttr))
  }

  /** The attribute half of `destroy`: a non-empty `data-title` goes back to `title`. */
  function RestoreTitle(attrs: Attrs, contentAttr: string): (r: Attrs)
    ensures Restores(attrs, contentAttr) ==>
      && Get(r, Title) == Get(attrs, DataTitle)
      && DataTitle !in r
      && r.Keys == attrs.Keys - {DataTitle} + {Title}
      && forall k :: k in attrs && k != Title && k != DataTitle ==> r[k] == attrs[k]
    ensures !Restores(attrs, contentAttr) ==> r == attrs
  {
    var title := Get(attrs, DataTitle);
    if contentAttr == DataTitle && Truthy(title) then
      (attrs - {DataTitle})[Title := title.value]
    else
      attrs
  }

  /** A second `getContent` returns the same value and changes nothing more. */
  lemma GetContentStable(attrs: Attrs, contentAttr: string)
    ensures var r := GetContent(attrs, contentAttr);
      GetContent(r.attrs, contentAttr) == r
  {
  }

  /** Round trip: migrating a non-empty title and then restoring it gives back the
      original attributes, except that a prior `data-title` is gone. */
  lemma MigrateRestore(attrs: Attrs)
    requires Migrates(attrs, DataTitle)
    ensures RestoreTitle(GetContent(attrs, DataTitle).attrs, DataTitle) == attrs - {DataTitle}
  {
  }

  /** Round trip the other way: restoring a non-empty `data-title` and reading the
      content again returns that value and puts it back, except that a prior `title`
      is gone. */
  lemma RestoreMigrate(attrs: Attrs)
    requires Restores(attrs, DataTitle)
    ensures GetContent(RestoreTitle(attrs, DataTitle), DataTitle)
         == Lookup(attrs - {Title}, Some(attrs[DataTitle]))
  {
  }
}

=== FILE: geometry.dfy ===
/**
 Placement of the overlay relative to the bound element and the viewport.
 Coordinates are exact `real`s: the browser's floating-point rounding is not modelled.
 */
module Geometry {

  /** Pixels between the element and the overlay, above or below it. */
  const Gap: real := 8.0

  /** A bounding client rectangle; its width and height are non-negative in a browser. */
  datatype Rect = Rect(left: real, top: real, width: real, height: real) {
    function Right(): real { left + width }
    function Bottom(): real { top + height }
  }

  /** The overlay's measured size. */
  datatype Size = Size(width: real, height: real)

  /** `window.innerWidth` / `window.innerHeight`. */
  datatype Viewport = Viewport(innerWidth: real, innerHeight: real)

  /** The translation applied to the overlay. */
  datatype Point = Point(x: real, y: real)

  /** The left coordinate that puts the overlay's centre over the element's centre. */
  function Centred(el: Rect, tip: Size): real {
    el.left + el.width / 2.0 - tip.width / 2.0
  }

  /** The element sits in the lower half of the viewport, so the overlay goes above it. */
  predicate InLowerHalf(el: Rect, view: Viewport) {
    el.top > view.innerHeight / 2.0
  }

  /** The centred overlay hangs off the left edge and the element is in the left half. */
  predicate LeftClamps(el: Rect, tip: Size, view: Viewport) {
    Centred(el, tip) < 0.0 && el.left <= view.innerWidth / 2.0
  }

  /** The overlay's position: flipped vertically by viewport half, centred horizontally,
      then snapped to the element's left edge and then its right edge when it would
      overflow the viewport on that side. */
  function GetPosition(el: Rect, tip: Size, view: Viewport): (p: Point)
    // vertical: exactly Gap pixels between overlay and element; above when the element's
    // top is in the lower half of the viewport, else below
    ensures InLowerHalf(el, view) ==> p.y + tip.height + Gap == el.top
    ensures !InLowerHalf(el, view) ==> p.y == el.Bottom() + Gap
    // horizontal: centred over the element whenever neither clamp fires
    ensures !LeftClamps(el, tip, view) && Centred(el, tip) + tip.width <= view.innerWidth
            ==> p.x + tip.width / 2.0 == el.left + el.width / 2.0
    // left clamp: aligned with the element's left edge when that keeps the overlay in view
    ensures LeftClamps(el, tip, view) && el.left + tip.width <= view.innerWidth ==> p.x == el.left
    // right snap: aligned with the element's right edge when the overlay would overflow
    ensures (if LeftClamps(el, tip, view) then el.left else Centred(el, tip)) + tip.width > view.innerWidth
            ==> p.x == el.Right() - tip.width
    // the right edge is inside the viewport, or else aligned with the element's right edge
    ensures p.x + tip.width <= view.innerWidth || p.x + tip.width == el.Right()
  {
    var x0 := Centred(el, tip);
    var x1 := if LeftClamps(el, tip, view) then el.left else x0;
    var x := if x1 + tip.width > view.innerWidth then el.Right() - tip.width else x1;
    var y := if InLowerHalf(el, view) then el.top - tip.height - Gap else el.top + el.height + Gap;
    Point(x, y)
  }

  /** An element whose right edge is inside the viewport never gets an overlay that
      sticks out past the viewport's right edge. */
  lemma RightEdgeInView(el: Rect, tip: Size, view: Viewport)
    requires el.Right() <= view.innerWidth
    ensures GetPosition(el, tip, view).x + tip.width <= view.innerWidth
  {
  }

  /** An element flush with the viewport's left edge, narrower than its overlay:
      the overlay starts at the element's left edge instead of at a negative x,
      provided it fits in the viewport. */
  lemma FlushLeft(el: Rect, tip: Size, view: Viewport)
    requires el.left == 0.0 && 0.0 <= el.width < tip.width <= view.innerWidth
    ensures GetPosition(el, tip, view).x == 0.0
  {
  }

  /** An element inside the viewport and at least as wide at its right edge as the
      overlay: the overlay lies horizontally inside the viewport. */
  lemma StaysInView(el: Rect, tip: Size, view: Viewport)
    requires 0.0 <= el.left && 0.0 <= el.width && el.Right() <= view.innerWidth
    requires 0.0 <= tip.width <= el.Right()
    ensures var p := GetPosition(el, tip, view);
      0.0 <= p.x && p.x + tip.width <= view.innerWidth
  {
  }

  /** Horizontal placement is not a containment guarantee: a narrow element near the
      left edge with an overlay that would fit the viewport is still pushed off the
      left edge, because the right snap aligns with the element, not the viewport. */
  lemma PushedOffLeft()
    ensures var p := GetPosition(Rect(10.0, 0.0, 10.0, 10.0), Size(95.0, 20.0), Viewport(100.0, 100.0));
      p.x == -75.0
  {
  }
}

=== FILE: listeners.dfy ===
/**
 Event-listener bookkeeping. A registration is identified, as in the DOM, by its
 target, event type, handler and capture flag: removing a listener only matches a
 registration with the same capture flag.
 */
module Listeners {
  import opened Wrappers

  /** Chosen once from the browser's touch capability. */
  datatype InputMode = Touch | Pointer

  datatype Target = Element | Document | Window

  datatype EventType =
    | Blur | Scroll | OrientationChange | Click | ContextMenu
    | Focus | MouseOver | MouseOut | KeyDown

  /** The instance's bound handler closures: each is one fixed function value. */
  datatype Handler = BlurFunc | UpdateFunc | HideFunc | ShowFuncPrevent | ShowFunc | FocusFunc

  datatype Registration = Registration(target: Target, event: EventType, handler: Handler, capture: bool)

  /** The handler the instance attaches to an event at a target, in whichever mode. */
  function Route(target: Target, event: EventType): Option<Handler> {
    match (target, event)
    case (Element, Blur) => Some(BlurFunc)
    case (Document, Scroll) => Some(UpdateFunc)
    case (Window, OrientationChange) => Some(UpdateFunc)
    case (Document, Click) => Some(HideFunc)
    case (Element, ContextMenu) => Some(ShowFuncPrevent)
    case (Element, Focus) => Some(ShowFunc)
    case (Element, MouseOver) => Some(ShowFunc)
    case (Element, MouseOut) => Some(HideFunc)
    case (Document, KeyDown) => Some(FocusFunc)
    case _ => None
  }

  /** Every registration `init` adds in the given mode. */
  function Wiring(mode: InputMode): (w: set<Registration>)
    // each registered event runs the one handler Route names for it
    ensures forall r :: r in w ==> Route(r.target, r.event) == Some(r.handler)
    // only blur and scroll listen in the capture phase
    ensures forall r :: r in w ==> (r.capture <==> r.event == Blur || r.event == Scroll)
    // both modes reposition on scroll and orientation change and hide on blur
    ensures Registration(Element, Blur, BlurFunc, true) in w
    ensures Registration(Document, Scroll, UpdateFunc, true) in w
    ensures Registration(Window, OrientationChange, UpdateFunc, false) in w
    // touch mode shows on long press and hides on any tap; pointer mode shows on hover and focus
    ensures mode == Touch <==> Registration(Element, ContextMenu, ShowFuncPrevent, false) in w
    ensures mode == Touch <==> Registration(Document, Click, HideFunc, false) in w
    ensures mode == Pointer <==> Registration(Element, MouseOver, ShowFunc, false) in w
    ensures mode == Pointer <==> Registration(Element, Focus, ShowFunc, false) in w
    ensures mode == Pointer <==> Registration(Element, MouseOut, HideFunc, false) in w
    ensures mode == Pointer <==> Registration(Document, KeyDown, FocusFunc, false) in w
  {
    var common := {
      Registration(Element, Blur, BlurFunc, true),
      Registration(Document, Scroll, UpdateFunc, true),
      Registration(Window, OrientationChange, UpdateFunc, false)
    };
    match mode
    case Touch =>
      common + {
        Registration(Document, Click, HideFunc, false),
        Registration(Element, ContextMenu, ShowFuncPrevent, false)
      }
    case Pointer =>
      common + {
        Registration(Element, Focus, ShowFunc, false),
        Registration(Element, MouseOver, ShowFunc, false),
        Registration(Element, MouseOut, HideFunc, false),
        Registration(Document, KeyDown, FocusFunc, false)
      }
  }

  /** `init`: add the mode's registrations; adding one already present changes nothing. */
  function Bind(mode: InputMode, regs: set<Registration>): (r: set<Registration>)
    ensures regs <= r && Wiring(mode) <= r
    ensures forall x :: x in r && x !in regs ==> x in Wiring(mode)
  {
    regs + Wiring(mode)
  }

  /** Every registration `destroy` asks to remove, exactly as it asks: blur without
      the capture flag it was added with. */
  function RemovalsAsWritten(mode: InputMode): set<Registration> {
    var common := {
      Registration(Element, Blur, BlurFunc, false),
      Registration(Document, Scroll, UpdateFunc, true),
      Registration(Window, OrientationChange, UpdateFunc, false)
    };
    match mode
    case Touch =>
      common + {
        Registration(Document, Click, HideFunc, false),
        Registration(Element, ContextMenu, ShowFuncPrevent, false)
      }
    case Pointer =>
      common + {
        Registration(Element, Focus, ShowFunc, false),
        Registration(Element, MouseOver, ShowFunc, false),
        Registration(Element, MouseOut, HideFunc, false),
        Registration(Document, KeyDown, FocusFunc, false)
      }
  }

  /** The listener half of `destroy` as the source writes it. */
  function UnbindAsWritten(mode: InputMode, regs: set<Registration>): (r: set<Registration>)
    ensures r <= regs
    ensures Registration(Element, Blur, BlurFunc, true) in regs ==> Registration(Element, Blur, BlurFunc, true) in r
    ensures forall x :: x in Wiring(mode) && x != Registration(Element, Blur, BlurFunc, true) ==> x !in r
    ensures forall x :: x in regs && x !in Wiring(mode) && x != Registration(Element, Blur, BlurFunc, false) ==> x in r
    ensures Registration(Element, Blur, BlurFunc, false) !in r
  {
    regs - RemovalsAsWritten(mode)
  }

  /** The listener half of `destroy` as intended: every registration `init` made goes. */
  function Unbind(mode: InputMode, regs: set<Registration>): (r: set<Registration>)
    ensures r <= regs
    ensures r !! Wiring(mode)
    ensures forall x :: x in regs && x !in Wiring(mode) ==> x in r
  {
    regs - Wiring(mode)
  }

  /** As written, the capture-phase blur listener outlives `destroy`, while every other
      registration of `init` is removed. */
  lemma AsWrittenKeepsBlur(mode: InputMode, regs: set<Registration>)
    ensures var r := UnbindAsWritten(mode, Bind(mode, regs));
      && Registration(Element, Blur, BlurFunc, true) in r
      && forall x :: x in Wiring(mode) && x != Registration(Element, Blur, BlurFunc, true) ==> x !in r
  {
  }

  /** Round trip: `destroy` after `init` leaves exactly the registrations that were there
      before, when none of them was one of the mode's own. */
  lemma UnbindAfterBind(mode: InputMode, regs: set<Registration>)
    requires regs !! Wiring(mode)
    ensures Unbind(mode, Bind(mode, regs)) == regs
  {
  }

  /** Running `init` twice registers nothing new: the DOM ignores a duplicate listener. */
  lemma BindIdempotent(mode: InputMode, regs: set<Registration>)
    ensures Bind(mode, Bind(mode, regs)) == Bind(mode, regs)
  {
  }
}

=== FILE: styles.dfy ===
/**
 The shared stylesheet: created once per document, found by its element id, never
 removed. The CSS text it holds is not modelled.
 */
module Styles {

  const StyleId: string := "io-tooltip-styles"

  /** How many elements with the stylesheet's id the head holds. */
  function Copies(head: seq<string>): nat {
    multiset(head)[StyleId]
  }

  /** The constructor's guard: append the stylesheet only when none is present. */
  function EnsureStyles(head: seq<string>): (r: seq<string>)
    ensures StyleId in r
    // existing head content is kept, in order, and at most one element is appended
    ensures head <= r && |r| <= |head| + 1
    // a stylesheet is added exactly when there was none
    ensures Copies(r) == if Copies(head) == 0 then 1 else Copies(head)
    // a present stylesheet leaves the head alone; a missing one is appended at the end
    ensures StyleId in head ==> r == head
    ensures StyleId !in head ==> r == head + [StyleId]
  {
    if StyleId in head then head else head + [StyleId]
  }

  /** Constructing `n` instances on one document. */
  function ConstructMany(head: seq<string>, n: nat): seq<string> {
    if n == 0 then head else EnsureStyles(ConstructMany(head, n - 1))
  }

  /** Repeated construction is idempotent: on a document without the stylesheet, any
      positive number of instances leaves exactly one copy of it. */
  lemma {:induction false} OneStylesheet(head: seq<string>, n: nat)
    requires Copies(head) == 0 && n > 0
    ensures Copies(ConstructMany(head, n)) == 1
    ensures ConstructMany(head, n) == head + [StyleId]
  {
    if n > 1 {
      OneStylesheet(head, n - 1);
    }
  }
}

=== FILE: tooltip.dfy ===
/**
 The tooltip instance: an optional current overlay, the "focus is on the element"
 flag, the overlays hidden but not yet removed, the element's attributes and the
 listener registrations, with one pure transition per operation of the source.
 DOM measurements (rectangles, viewport) arrive as a Layout parameter; timers and
 `transitionend` arrive as inputs of their own.
 */
module Tooltip {
  import opened Wrappers
  import opened Geometry
  import opened Attributes
  import opened Listeners
  import Styles

  /** Identity of an overlay `div`; every `show` creates a node with a fresh id. */
  type NodeId = nat

  /** The options the caller passes; None is a key left out. */
  datatype Options = Options(content: Option<string>, contentAttr: Option<string>)

  /** The options after merging over the default content attribute. */
  datatype Config = Config(content: Option<string>, contentAttr: string)

  /** An overlay node: its markup, whether it carries the `active` class, its transform. */
  datatype Overlay = Overlay(content: string, active: bool, transform: Option<Point>)

  /** The two ways a hidden overlay's removal can be triggered. */
  datatype Completion = TransitionEnd | Timeout

  const BothSignals: set<Completion> := {TransitionEnd, Timeout}

  /** The part of the document the instance touches. `overlays` lists this instance's
      overlay nodes attached to the body, in document order; `nodes` holds every
      overlay node ever created; `nextId` is the next fresh node id. */
  datatype Doc = Doc(head: seq<string>, overlays: seq<NodeId>, nodes: map<NodeId, Overlay>, nextId: NodeId)

  /** An event's `relatedTarget`: none, a node inside the bound element (the element
      itself included), or a node elsewhere. */
  datatype Related = NoRelated | Inside | Outside

  /** The measurements `getPosition` reads from the DOM. */
  datatype Layout = Layout(el: Rect, tip: Size, view: Viewport)

  datatype State = State(
    mode: InputMode,
    config: Config,
    attrs: Attrs,
    tooltip: Option<NodeId>,
    activeIsElement: bool,
    pendingFocus: nat,
    awaiting: map<NodeId, set<Completion>>,
    listeners: set<Registration>,
    doc: Doc)

  /** Everything that can happen to an instance: a DOM event reaching a target, the
      timer scheduled by a Tab keydown, a removal signal for a hidden overlay, and the
      four public calls (`destroy` as the source writes it). */
  datatype Input =
    | Fire(target: Target, event: EventType, related: Related, key: string, layout: Layout)
    | FocusSettled(focusIsElement: bool)
    | Finish(node: NodeId, signal: Completion)
    | CallShow(layout: Layout)
    | CallHide(related: Related)
    | CallUpdate(layout: Layout)
    | CallDestroy

  /** Sequences without repeated elements. */
  ghost predicate NoDup(xs: seq<NodeId>) {
    forall i, j :: 0 <= i < j < |xs| ==> xs[i] != xs[j]
  }

  /** `Node.remove()` on one overlay: it leaves the body; removing a detached node does nothing. */
  function Detach(xs: seq<NodeId>, id: NodeId): (r: seq<NodeId>)
    ensures forall x :: x in r <==> x in xs && x != id
    ensures NoDup(xs) ==> NoDup(r)
    ensures NoDup(xs) && id in xs ==> |r| == |xs| - 1
    ensures id !in xs ==> r == xs
  {
    if xs == [] then []
    else if xs[0] == id then Detach(xs[1..], id)
    else
      var rest := Detach(xs[1..], id);
      assert NoDup(xs) ==> xs[0] !in xs[1..] && NoDup(xs[1..]) by {
        if NoDup(xs) {
          assert forall k :: 0 <= k < |xs[1..]| ==> xs[1..][k] == xs[k + 1];
        }
      }
      assert NoDup(xs) ==> NoDup([xs[0]] + rest) by {
        if NoDup(xs) {
          forall i, j | 0 <= i < j < |[xs[0]] + rest|
            ensures ([xs[0]] + rest)[i] != ([xs[0]] + rest)[j]
          {
            if i == 0 {
              assert ([xs[0]] + rest)[j] == rest[j - 1];
            }
          }
        }
      }
      [xs[0]] + rest
  }

  /** A list without repeats has a head that does not recur and a tail without repeats. */
  lemma NoDupTail(xs: seq<NodeId>)
    requires NoDup(xs) && xs != []
    ensures xs[0] !in xs[1..] && NoDup(xs[1..])
  {
    assert forall k :: 0 <= k < |xs[1..]| ==> xs[1..][k] == xs[k + 1];
  }

  /** Removing the node at position `i` keeps the other siblings in document order. */
  lemma {:induction false} DetachKeepsOrder(xs: seq<NodeId>, i: nat)
    requires NoDup(xs) && i < |xs|
    ensures Detach(xs, xs[i]) == xs[..i] + xs[i + 1..]
    decreases i
  {
    NoDupTail(xs);
    var tail := xs[1..];
    if i == 0 {
      assert Detach(xs, xs[0]) == Detach(tail, xs[0]) == tail;
      assert xs[..0] + xs[1..] == tail;
    } else {
      assert xs[0] != xs[i];
      assert tail[i - 1] == xs[i];
      DetachKeepsOrder(tail, i - 1);
      assert Detach(xs, xs[i]) == [xs[0]] + Detach(tail, xs[i]);
      assert [xs[0]] + (tail[..i - 1] + tail[i..]) == xs[..i] + xs[i + 1..];
    }
  }

  /** `Object.assign({contentAttr: 'data-title'}, options)`. */
  function MergeOptions(options: Options): (c: Config)
    ensures c.content == options.content
    ensures options.contentAttr.Some? ==> c.contentAttr == options.contentAttr.value
    ensures options.contentAttr.None? ==> c.contentAttr == DataTitle
  {
    Config(options.content, options.contentAttr.GetOr(DataTitle))
  }

  /** Assigning `null` to `innerHTML` yields empty markup. */
  function Markup(v: Option<string>): string {
    v.GetOr("")
  }

  /** The state every reachable instance is in. */
  ghost predicate Valid(s: State) {
    var d := s.doc;
    && NoDup(d.overlays)
    && (forall i :: 0 <= i < |d.overlays| ==> d.overlays[i] in d.nodes)
    && (forall id :: id in d.nodes ==> id < d.nextId)
    // an attached overlay is the current one or one awaiting removal
    && (forall i :: 0 <= i < |d.overlays| ==> s.tooltip == Some(d.overlays[i]) || d.overlays[i] in s.awaiting)
    // the current overlay is attached, visible and not scheduled for removal
    && (s.tooltip.Some? ==>
          s.tooltip.value in d.overlays && s.tooltip.value !in s.awaiting && d.nodes[s.tooltip.value].active)
    // a hidden overlay is faded out and still attached exactly while neither signal has fired
    && (forall id :: id in s.awaiting ==>
          && id in d.nodes
          && !d.nodes[id].active
          && s.awaiting[id] != {}
          && s.awaiting[id] <= BothSignals
          && (id in d.overlays <==> s.awaiting[id] == BothSignals))
    && s.listeners <= Wiring(s.mode)
  }

  /** The constructor: merge options, register the mode's listeners, add the shared
      stylesheet if absent. The title attribute is not migrated here. */
  function Construct(attrs: Attrs, options: Options, mode: InputMode, head: seq<string>): (s: State)
    ensures Valid(s)
    ensures s.attrs == attrs
    ensures s.mode == mode && s.config == MergeOptions(options)
    ensures s.tooltip.None? && s.doc.overlays == [] && s.doc.nodes == map[]
    ensures s.awaiting == map[] && !s.activeIsElement && s.pendingFocus == 0
    ensures s.doc.head == Styles.EnsureStyles(head)
    ensures s.listeners == Wiring(mode)
    ensures Styles.Copies(s.doc.head) >= 1
    ensures Styles.Copies(head) > 0 ==> s.doc.head == head
  {
    State(mode, MergeOptions(options), attrs, None, false, 0, map[], Bind(mode, {}),
          Doc(Styles.EnsureStyles(head), [], map[], 0))
  }

  /** `update`: reposition the current overlay and make it visible; nothing without one. */
  function Update(s: State, layout: Layout): (r: State)
    ensures s.tooltip.None? ==> r == s
    ensures s.tooltip.Some? ==>
      var id := s.tooltip.value;
      && id in r.doc.nodes
      && r.doc.nodes[id].active
      && r.doc.nodes[id].transform == Some(GetPosition(layout.el, layout.tip, layout.view))
      && (id in s.doc.nodes ==> r.doc.nodes[id].content == s.doc.nodes[id].content)
      && (forall n :: n in s.doc.nodes && n != id ==> n in r.doc.nodes && r.doc.nodes[n] == s.doc.nodes[n])
      && r.doc.nodes.Keys == s.doc.nodes.Keys + {id}
      && r == s.(doc := r.doc)
      && r.doc == s.doc.(nodes := r.doc.nodes)
  {
    if s.tooltip.None? then s
    else
      var id := s.tooltip.value;
      var node := if id in s.doc.nodes then s.doc.nodes[id] else Overlay("", false, None);
      var moved := node.(transform := Some(GetPosition(layout.el, layout.tip, layout.view)), active := true);
      s.(doc := s.doc.(nodes := s.doc.nodes[id := moved]))
  }

  /** `show`: nothing if an overlay exists; otherwise a fresh overlay holding the content
      option or else the looked-up attribute, appended to the body and positioned. */
  function Show(s: State, layout: Layout): (r: State)
    ensures s.tooltip.Some? ==> r == s
    ensures s.tooltip.None? ==>
      var id := s.doc.nextId;
      && r.tooltip == Some(id)
      && r.doc.overlays == s.doc.overlays + [id]
      && r.doc.nextId == id + 1
      && id in r.doc.nodes
      && r.doc.nodes[id].active
      && r.doc.nodes[id].transform == Some(GetPosition(layout.el, layout.tip, layout.view))
      && (forall n :: n in s.doc.nodes && n != id ==> n in r.doc.nodes && r.doc.nodes[n] == s.doc.nodes[n])
      && r.doc.nodes.Keys == s.doc.nodes.Keys + {id}
      && r.doc.head == s.doc.head
      && r == s.(attrs := r.attrs, tooltip := r.tooltip, doc := r.doc)
    // the content option wins and the attributes are not touched
    ensures s.tooltip.None? && s.config.content.Some? ==>
      r.attrs == s.attrs && r.doc.nodes[s.doc.nextId].content == s.config.content.value
    // otherwise the content is looked up, possibly migrating the title
    ensures s.tooltip.None? && s.config.content.None? ==>
      var lookup := GetContent(s.attrs, s.config.contentAttr);
      r.attrs == lookup.attrs && r.doc.nodes[s.doc.nextId].content == Markup(lookup.value)
  {
    if s.tooltip.Some? then s
    else
      var lookup :=
        if s.config.content.Some? then Lookup(s.attrs, s.config.content)
        else GetContent(s.attrs, s.config.contentAttr);
      var id := s.doc.nextId;
      var doc := s.doc.(
        overlays := s.doc.overlays + [id],
        nodes := s.doc.nodes[id := Overlay(Markup(lookup.value), false, None)],
        nextId := id + 1);
      Update(s.(attrs := lookup.attrs, tooltip := Some(id), doc := doc), layout)
  }

  /** When `hide` returns early: no overlay, focus is still on the element, or the event's
      related target lies inside the element. */
  predicate HideSuppressed(s: State, related: Related) {
    s.tooltip.None? || s.activeIsElement || related == Inside
  }

  /** `hide`: detach the current overlay from the instance, fade it out, and arm its two
      removal signals; the node stays in the body until one of them fires. */
  function Hide(s: State, related: Related): (r: State)
    ensures HideSuppressed(s, related) ==> r == s
    ensures !HideSuppressed(s, related) ==>
      var id := s.tooltip.value;
      && r.tooltip.None?
      && id in r.awaiting && r.awaiting[id] == BothSignals
      && (forall n :: n in s.awaiting && n != id ==> n in r.awaiting && r.awaiting[n] == s.awaiting[n])
      && r.awaiting.Keys == s.awaiting.Keys + {id}
      && id in r.doc.nodes && !r.doc.nodes[id].active
      && (id in s.doc.nodes ==> r.doc.nodes[id] == s.doc.nodes[id].(active := false))
      && (forall n :: n in s.doc.nodes && n != id ==> n in r.doc.nodes && r.doc.nodes[n] == s.doc.nodes[n])
      && r.doc.overlays == s.doc.overlays
      && r == s.(tooltip := None, awaiting := r.awaiting, doc := r.doc)
      && r.doc == s.doc.(nodes := r.doc.nodes)
  {
    if HideSuppressed(s, related) then s
    else
      var id := s.tooltip.value;
      var node := if id in s.doc.nodes then s.doc.nodes[id] else Overlay("", false, None);
      s.(tooltip := None,
         awaiting := s.awaiting[id := BothSignals],
         doc := s.doc.(nodes := s.doc.nodes[id := node.(active := false)]))
  }

  /** A removal signal for a hidden overlay: the first of the two removes the node, the
      second finds it gone; a signal for any other node changes nothing. */
  function Complete(s: State, id: NodeId, signal: Completion): (r: State)
    ensures !(id in s.awaiting && signal in s.awaiting[id]) ==> r == s
    ensures id in s.awaiting && signal in s.awaiting[id] ==>
      && id !in r.doc.overlays
      && (forall x :: x in r.doc.overlays <==> x in s.doc.overlays && x != id)
      && (id in r.awaiting ==> r.awaiting[id] == s.awaiting[id] - {signal})
      && (id !in r.awaiting <==> s.awaiting[id] == {signal})
      && (forall n :: n in s.awaiting && n != id ==> n in r.awaiting && r.awaiting[n] == s.awaiting[n])
      && r.awaiting.Keys <= s.awaiting.Keys
      && r == s.(awaiting := r.awaiting, doc := r.doc)
      && r.doc == s.doc.(overlays := r.doc.overlays)
  {
    if id in s.awaiting && signal in s.awaiting[id] then
      var rest := s.awaiting[id] - {signal};
      s.(awaiting := if rest == {} then s.awaiting - {id} else s.awaiting[id := rest],
         doc := s.doc.(overlays := Detach(s.doc.overlays, id)))
    else s
  }

  /** `destroy`: put the title back and remove the mode's listeners. The current overlay
      is neither hidden nor removed. */
  function Destroy(s: State): (r: State)
    ensures r.attrs == RestoreTitle(s.attrs, s.config.contentAttr)
    ensures r.listeners !! Wiring(s.mode)
    ensures forall x :: x in s.listeners && x !in Wiring(s.mode) ==> x in r.listeners
    ensures r == s.(attrs := r.attrs, listeners := r.listeners)
  {
    s.(attrs := RestoreTitle(s.attrs, s.config.contentAttr), listeners := Unbind(s.mode, s.listeners))
  }

  /** `destroy` as the source writes it: the capture-phase blur listener stays. */
  function DestroyAsWritten(s: State): (r: State)
    ensures r.attrs == Destroy(s).attrs
    ensures r.listeners <= s.listeners
    // of the mode's own registrations only the capture-phase blur survives
    ensures forall x :: x in s.listeners && x in Wiring(s.mode) ==>
      (x in r.listeners <==> x == Registration(Element, Blur, BlurFunc, true))
    // any other registration stays, except a bubble-phase blur, which the call names
    ensures forall x :: x in s.listeners && x !in Wiring(s.mode) && x != Registration(Element, Blur, BlurFunc, false) ==>
      x in r.listeners
    // the overlay, the document and the pending removals are left as they are
    ensures r == s.(attrs := r.attrs, listeners := r.listeners)
  {
    s.(attrs := RestoreTitle(s.attrs, s.config.contentAttr), listeners := UnbindAsWritten(s.mode, s.listeners))
  }

  /** Run one of the instance's handlers. */
  function Handle(s: State, h: Handler, related: Related, key: string, layout: Layout): (r: State)
    // no handler changes the mode, the options, the registrations or the stylesheet
    ensures r.mode == s.mode && r.config == s.config && r.listeners == s.listeners && r.doc.head == s.doc.head
    // the blur handler forgets the focused element first, so the focus flag never
    // suppresses its hide: a visible overlay goes unless the focus moves inside
    ensures h == BlurFunc ==> !r.activeIsElement
    ensures h == BlurFunc && s.tooltip.Some? && related != Inside ==> r.tooltip.None?
    // the plain hide handler is suppressed while focus is on the element
    ensures h == HideFunc && s.activeIsElement ==> r == s
    ensures h == HideFunc && s.tooltip.Some? && !s.activeIsElement && related != Inside ==> r.tooltip.None?
    // the show handlers always leave an overlay in place
    ensures h == ShowFunc || h == ShowFuncPrevent ==> r.tooltip.Some?
    // repositioning never creates, hides or re-labels an overlay
    ensures h == UpdateFunc ==> r.tooltip == s.tooltip && r.attrs == s.attrs && r.awaiting == s.awaiting
    // a Tab keydown only schedules one focus read; any other key does nothing
    ensures h == FocusFunc ==> r.tooltip == s.tooltip && r.doc == s.doc && r.attrs == s.attrs
    ensures h == FocusFunc ==> r.pendingFocus == (if key == "Tab" then s.pendingFocus + 1 else s.pendingFocus)
  {
    match h
    case BlurFunc => Hide(s.(activeIsElement := false), related)
    case UpdateFunc => Update(s, layout)
    case HideFunc => Hide(s, related)
    case ShowFunc => Show(s, layout)
    case ShowFuncPrevent => Show(s, layout)
    case FocusFunc => if key == "Tab" then s.(pendingFocus := s.pendingFocus + 1) else s
  }

  /** Whether a handler is registered for an event at a target, in either phase. */
  predicate Listening(regs: set<Registration>, target: Target, event: EventType, h: Handler) {
    Registration(target, event, h, true) in regs || Registration(target, event, h, false) in regs
  }

  /** One input applied to the instance. */
  function Step(s: State, input: Input): (r: State)
    // the input mode and the options are fixed; the stylesheet is never removed
    ensures r.mode == s.mode && r.config == s.config && r.doc.head == s.doc.head
    // only destroy touches the registrations
    ensures !input.CallDestroy? ==> r.listeners == s.listeners
    // an event nobody listens for changes nothing
    ensures input.Fire? && (Route(input.target, input.event).None? ||
              !Listening(s.listeners, input.target, input.event, Route(input.target, input.event).value))
            ==> r == s
    // node ids are never reused and created nodes are never forgotten
    ensures r.doc.nextId >= s.doc.nextId && s.doc.nodes.Keys <= r.doc.nodes.Keys
    // the focus flag moves only when a scheduled read settles or on blur
    ensures r.activeIsElement != s.activeIsElement ==>
      (input.FocusSettled? && s.pendingFocus > 0) || (input.Fire? && input.event == Blur)
    ensures input.FocusSettled? && s.pendingFocus > 0 ==> r.activeIsElement == input.focusIsElement
    // a settled read consumes one scheduled read; only a Tab keydown schedules one
    ensures r.pendingFocus > s.pendingFocus ==> input.Fire? && input.event == KeyDown && input.key == "Tab"
    ensures input.FocusSettled? ==> r.pendingFocus == if s.pendingFocus > 0 then s.pendingFocus - 1 else 0
    // the attributes change only through a show (the title migration) or a destroy
    ensures r.attrs != s.attrs ==>
      || input.CallShow? || input.CallDestroy?
      || (input.Fire? && Route(input.target, input.event) in {Some(ShowFunc), Some(ShowFuncPrevent)})
  {
    match input
    case Fire(target, event, related, key, layout) =>
      var h := Route(target, event);
      if h.Some? && Listening(s.listeners, target, event, h.value) then Handle(s, h.value, related, key, layout)
      else s
    case FocusSettled(isElement) =>
      if s.pendingFocus > 0 then s.(activeIsElement := isElement, pendingFocus := s.pendingFocus - 1)
      else s
    case Finish(id, signal) => Complete(s, id, signal)
    case CallShow(layout) => Show(s, layout)
    case CallHide(related) => Hide(s, related)
    case CallUpdate(layout) => Update(s, layout)
    case CallDestroy => DestroyAsWritten(s)
  }

  /** A sequence of inputs applied in order. */
  function Run(s: State, inputs: seq<Input>): State
    decreases |inputs|
  {
    if inputs == [] then s else Run(Step(s, inputs[0]), inputs[1..])
  }
}

=== FILE: tooltip_proofs.dfy ===
/**
 Properties of the tooltip instance: the state invariant every input preserves, the
 no-op guards, the removal race, the title round trip and the listener leak.
 */
module TooltipProofs {
  import opened Wrappers
  import opened Geometry
  import opened Attributes
  import opened Listeners
  import opened Tooltip

  lemma UpdatePreservesValid(s: State, layout: Layout)
    requires Valid(s)
    ensures Valid(Update(s, layout))
  {
  }

  lemma ShowPreservesValid(s: State, layout: Layout)
    requires Valid(s)
    ensures Valid(Show(s, layout))
  {
  }

  lemma HidePreservesValid(s: State, related: Related)
    requires Valid(s)
    ensures Valid(Hide(s, related))
  {
  }

  lemma CompletePreservesValid(s: State, id: NodeId, signal: Completion)
    requires Valid(s)
    ensures Valid(Complete(s, id, signal))
  {
    if id in s.awaiting && signal in s.awaiting[id] {
      var r := Complete(s, id, signal);
      forall i | 0 <= i < |r.doc.overlays|
        ensures r.tooltip == Some(r.doc.overlays[i]) || r.doc.overlays[i] in r.awaiting
      {
        var x := r.doc.overlays[i];
        assert x in s.doc.overlays && x != id;
      }
    }
  }

  /** The intended `destroy` keeps the state invariant too. */
  lemma DestroyPreservesValid(s: State)
    requires Valid(s)
    ensures Valid(Destroy(s))
  {
  }

  lemma HandlePreservesValid(s: State, h: Handler, related: Related, key: string, layout: Layout)
    requires Valid(s)
    ensures Valid(Handle(s, h, related, key, layout))
  {
    match h
    case BlurFunc => HidePreservesValid(s.(activeIsElement := false), related);
    case UpdateFunc => UpdatePreservesValid(s, layout);
    case HideFunc => HidePreservesValid(s, related);
    case ShowFunc => ShowPreservesValid(s, layout);
    case ShowFuncPrevent => ShowPreservesValid(s, layout);
    case FocusFunc =>
  }

  /** Every input keeps the instance in a reachable shape. */
  lemma StepPreservesValid(s: State, input: Input)
    requires Valid(s)
    ensures Valid(Step(s, input))
  {
    match input
    case Fire(target, event, related, key, layout) =>
      var h := Route(target, event);
      if h.Some? {
        HandlePreservesValid(s, h.value, related, key, layout);
      }
    case FocusSettled(_) =>
    case Finish(id, signal) => CompletePreservesValid(s, id, signal);
    case CallShow(layout) => ShowPreservesValid(s, layout);
    case CallHide(related) => HidePreservesValid(s, related);
    case CallUpdate(layout) => UpdatePreservesValid(s, layout);
    case CallDestroy =>
  }

  lemma {:induction false} RunPreservesValid(s: State, inputs: seq<Input>)
    requires Valid(s)
    ensures Valid(Run(s, inputs))
    decreases |inputs|
  {
    if inputs != [] {
      StepPreservesValid(s, inputs[0]);
      RunPreservesValid(Step(s, inputs[0]), inputs[1..]);
    }
  }

  /** At most one overlay per instance is visible at any time: every other attached
      overlay is fading out. */
  lemma AtMostOneVisible(s: State)
    requires Valid(s)
    ensures forall i :: 0 <= i < |s.doc.overlays| && s.doc.nodes[s.doc.overlays[i]].active ==>
      s.tooltip == Some(s.doc.overlays[i])
  {
  }

  /** The same, for any history of inputs after construction. */
  lemma {:induction false} OneVisibleAfterAnyRun(attrs: Attrs, options: Options, mode: InputMode,
                                                  head: seq<string>, inputs: seq<Input>)
    ensures var s := Run(Construct(attrs, options, mode, head), inputs);
      forall i :: (0 <= i < |s.doc.overlays| && s.doc.overlays[i] in s.doc.nodes &&
                   s.doc.nodes[s.doc.overlays[i]].active) ==> s.tooltip == Some(s.doc.overlays[i])
  {
    RunPreservesValid(Construct(attrs, options, mode, head), inputs);
  }

  /** A repeated `show` is a no-op: the first one already created the overlay. */
  lemma DuplicateShow(s: State, first: Layout, second: Layout)
    ensures Show(Show(s, first), second) == Show(s, first)
  {
  }

  /** Repositioning is idempotent: a second `update` with the same measurements (another
      scroll event, say) changes nothing. */
  lemma UpdateIdempotent(s: State, layout: Layout)
    ensures Update(Update(s, layout), layout) == Update(s, layout)
  {
  }

  /** A repeated `hide` is a no-op once the overlay reference is cleared. */
  lemma DuplicateHide(s: State, first: Related, second: Related)
    requires Hide(s, first).tooltip.None?
    ensures Hide(Hide(s, first), second) == Hide(s, first)
  {
  }

  /** After an effective `hide`, `show` creates a new overlay while the old one is still
      attached and awaiting removal. */
  lemma HideThenShowFresh(s: State, related: Related, layout: Layout)
    requires Valid(s) && !HideSuppressed(s, related)
    ensures var t := Show(Hide(s, related), layout);
      && t.tooltip.Some?
      && t.tooltip.value != s.tooltip.value
      && t.tooltip.value !in s.doc.nodes
      && s.tooltip.value in t.awaiting
      && s.tooltip.value in t.doc.overlays && t.tooltip.value in t.doc.overlays
  {
  }

  /** A hidden overlay is removed exactly once: whichever signal fires first detaches it,
      the other then leaves the document as it is and retires the entry. */
  lemma RemovedExactlyOnce(s: State, id: NodeId, first: Completion, second: Completion)
    requires Valid(s) && id in s.awaiting && id in s.doc.overlays && first != second
    ensures var t := Complete(s, id, first);
      && id !in t.doc.overlays
      && |t.doc.overlays| == |s.doc.overlays| - 1
      && (forall x :: x in t.doc.overlays <==> x in s.doc.overlays && x != id)
      && Complete(t, id, second).doc == t.doc
      && id !in Complete(t, id, second).awaiting
  {
  }

  /** A removal signal never touches the current overlay: a timer armed by an earlier
      `hide` cannot remove the overlay a later `show` created. */
  lemma OldTimerSparesCurrent(s: State, id: NodeId, signal: Completion)
    requires Valid(s) && s.tooltip.Some?
    ensures var t := Complete(s, id, signal);
      t.tooltip == s.tooltip && s.tooltip.value in t.doc.overlays && t.doc.nodes == s.doc.nodes
  {
  }

  /** Round trip: with the default content attribute, no content option and a non-empty
      title, `show` then `destroy` restores the title and removes `data-title`. */
  lemma ShowDestroyRoundTrip(s: State, layout: Layout)
    requires s.tooltip.None? && s.config == Config(None, DataTitle)
    requires Truthy(Get(s.attrs, Title))
    ensures DestroyAsWritten(Show(s, layout)).attrs == s.attrs - {DataTitle}
    ensures Get(DestroyAsWritten(Show(s, layout)).attrs, Title) == Get(s.attrs, Title)
  {
    MigrateRestore(s.attrs);
  }

  /** After `destroy` no DOM event reaches the instance any more. */
  lemma DestroyedIgnoresEvents(s: State, target: Target, event: EventType, related: Related,
                               key: string, layout: Layout)
    requires Valid(s)
    ensures var d := Destroy(s);
      Step(d, Fire(target, event, related, key, layout)) == d
  {
  }

  /** As written, a destroyed instance still hides its overlay on blur. */
  lemma BlurAfterAsWrittenDestroy(s: State, related: Related, layout: Layout)
    requires s.tooltip.Some? && related != Inside
    requires Registration(Element, Blur, BlurFunc, true) in s.listeners
    ensures var d := DestroyAsWritten(s);
      var t := Step(d, Fire(Element, Blur, related, "", layout));
      d.tooltip.Some? && t.tooltip.None? && !t.activeIsElement
  {
  }

  /** Pointer mode: once a Tab keydown's focus read settles on the element, mouseout no
      longer hides the overlay, while a blur still does, because it clears the flag. */
  lemma TabFocusKeepsOverlay(s: State, related: Related, layout: Layout)
    requires Valid(s) && Registration(Document, KeyDown, FocusFunc, false) in s.listeners
    requires Registration(Element, Blur, BlurFunc, true) in s.listeners
    requires s.tooltip.Some? && related != Inside
    ensures var f := Step(Step(s, Fire(Document, KeyDown, NoRelated, "Tab", layout)), FocusSettled(true));
      && f.activeIsElement && f.tooltip == s.tooltip
      && Step(f, Fire(Element, MouseOut, related, "", layout)) == f
      && Step(f, Fire(Element, Blur, related, "", layout)).tooltip.None?
  {
  }

  /** Construction followed by `destroy` (as written) gives back the original attributes
      exactly when `destroy` finds nothing to restore: the content attribute is not the
      default one, or `data-title` is absent or empty. */
  lemma ConstructDestroyRoundTrip(attrs: Attrs, options: Options, mode: InputMode, head: seq<string>)
    ensures DestroyAsWritten(Construct(attrs, options, mode, head)).attrs == attrs
        <==> !Restores(attrs, MergeOptions(options).contentAttr)
  {
  }

  /** Because the constructor does not migrate, `destroy` right after it turns an existing
      `data-title` into a native title the element never had. */
  lemma DestroyInventsTitle()
    ensures DestroyAsWritten(Construct(map[DataTitle := "Save"], Options(None, None), Pointer, [])).attrs
         == map[Title := "Save"]
  {
  }

  /** ... and overwrites a native title with the `data-title` value when both exist. */
  lemma DestroyOverwritesTitle()
    ensures DestroyAsWritten(Construct(map[Title := "Old", DataTitle := "New"], Options(None, None), Touch, [])).attrs
         == map[Title := "New"]
  {
  }

  /** The hover half of the end-to-end scenario: mouseover on a fresh pointer-mode
      instance over a titled element shows the title in a new visible overlay. */
  lemma HoverShowsTitle(s: State, title: string, layout: Layout)
    requires s.mode == Pointer && s.listeners == Wiring(Pointer) && s.config == Config(None, DataTitle)
    requires s.tooltip.None? && s.doc.overlays == [] && s.attrs == map[Title := title] && title != ""
    ensures var t := Step(s, Fire(Element, MouseOver, NoRelated, "", layout));
      && t.tooltip == Some(s.doc.nextId) && t.doc.overlays == [s.doc.nextId]
      && t.doc.nodes[s.doc.nextId].content == title && t.doc.nodes[s.doc.nextId].active
      && t.attrs == map[DataTitle := title]
      && t.listeners == s.listeners && t.activeIsElement == s.activeIsElement && t.awaiting == s.awaiting
  {
  }

  /** The leave half: mouseout towards another node fades the overlay; the timer then
      removes it. */
  lemma LeaveFadesThenRemoves(s: State, id: NodeId, layout: Layout)
    requires s.mode == Pointer && s.listeners == Wiring(Pointer) && !s.activeIsElement
    requires s.tooltip == Some(id) && s.doc.overlays == [id] && id !in s.awaiting
    ensures var t := Step(s, Fire(Element, MouseOut, Outside, "", layout));
      && t.tooltip.None? && t.doc.overlays == [id] && id in t.doc.nodes && !t.doc.nodes[id].active
      && Step(t, Finish(id, Timeout)).doc.overlays == []
  {
  }

  /** A button titled "Save" in pointer mode: hovering shows an active overlay reading
      "Save" at the end of the body; moving away fades it; the fallback timer removes it. */
  lemma EndToEnd(layout: Layout)
    ensures
      var s0 := Construct(map[Title := "Save"], Options(None, None), Pointer, []);
      var s1 := Step(s0, Fire(Element, MouseOver, NoRelated, "", layout));
      var s2 := Step(s1, Fire(Element, MouseOut, Outside, "", layout));
      var s3 := Step(s2, Finish(0, Timeout));
      && s1.doc.overlays == [0] && s1.doc.nodes[0].content == "Save" && s1.doc.nodes[0].active
      && s1.attrs == map[DataTitle := "Save"]
      && s2.tooltip.None? && s2.doc.overlays == [0] && !s2.doc.nodes[0].active
      && s3.doc.overlays == []
  {
    var s0 := Construct(map[Title := "Save"], Options(None, None), Pointer, []);
    HoverShowsTitle(s0, "Save", layout);
    var s1 := Step(s0, Fire(Element, MouseOver, NoRelated, "", layout));
    LeaveFadesThenRemoves(s1, 0, layout);
  }
}

=== FILE: wrappers.dfy ===
/** Optional values: the model's stand-in for JavaScript's `null` / `undefined`. */
module Wrappers {

  datatype Option<+T> = None | Some(value: T) {

    /** The wrapped value, or `default` when there is none (JavaScript's `??`). */
    function GetOr(default: T): T {
      match this
      case Some(v) => v
      case None => default
    }
  }
}
